=== FILE: README.md ===
# Schatzinsel quiz server, modelled in Dafny

The server keeps everything in memory: registered users, study groups,
the question catalogue, a queue of suggested questions, and one chat log
per group. It offers two kinds of operations:

- HTTP handlers: register a user, list the categories, join a group,
  fetch a quiz, submit answers, suggest a question, approve or reject a
  suggestion, and show a profile.
- Socket events: bind a connection to a user and a group, post a chat
  line, and announce a quiz result.

The model has six modules:

- `Common`: `Option`; `FirstMatch`, which models JavaScript's
  `find`/`findIndex`; and `RemoveAt`, which models `splice(i, 1)`.
- `Chat`: the log entries, and `Trim`, which models JavaScript's
  `String.prototype.trim`.
- `Quiz`: questions, the quiz selection, the grading loop, and the
  moderation entries.
- `Groups`: the group record, the first-fit placement of
  `findOrCreateGroup` plus enrolment, and the registry invariant.
- `Directory`: users, the registration checks, profiles, and member
  details.
- `Server`: the two stateful classes.
  - `Store` holds the module-level arrays, the chat map and the two id
    counters as fields. Each HTTP handler is one method on it.
  - `Connection` holds a socket's `userId` and `groupId`. Each socket
    event is one method on it.

Every `Store` method keeps `Valid()`, which bundles four guarantees:

- User ids follow the counter. User names and e-mail addresses are unique.
- Group ids follow their counter, and every group stays well shaped: at
  most two members, `ready` exactly at two, no member twice, and a score
  for each member.
- Every member is a registered user, and no user is in two groups.
- There is one chat log per group. The catalogue holds only approved
  questions and the queue only unapproved ones.

The one loop in the handlers the model covers, the grading `forEach`,
is the `while` loop of `Quiz.Grade`. Its postcondition ties the score to
the set of positions answered right. The `map`/`filter` chains are
functions on sequences, pinned to the order-preserving filter by lemmas.

Four behaviours of the code are worth noting:

- Submitting a quiz writes `group.scores[userId]` without checking
  membership (server.js:504). So the score keys of a group can include
  users who are not members.
- A group becomes `ready` at two members (server.js:408), and a `ready`
  group takes nobody in. So the third user to join a category opens a
  second group; it does not wait until the group holds five.
- There is no unbinding of sockets and no subscriber set. Broadcasting
  is the Socket.IO room of the group.
- Nothing ever sets a group back to `waiting`, nor to `playing` or
  `finished`.

## Model

| member | source | states |
|---|---|---|
| Common.FirstMatch | server.js:582 | `findIndex`: the index found satisfies the predicate and no earlier element does; None exactly when no element satisfies it |
| Common.RemoveAt | server.js:593 | `splice(i, 1)`: one element shorter, elements before i kept, later ones shifted down by one, and the multiset loses exactly `s[i]` |
| Chat.Trim | server.js:156-162 | the trimmed text is a slice of the input, with only trimmable characters around it; it neither starts nor ends with one; it is empty iff the input is all whitespace |
| Chat.TrimIdempotent | server.js:162 | the stored chat body is its own trim |
| Quiz.Approved | server.js:441-442 | exactly the approved questions of the category, none invented |
| Quiz.QuizSet | server.js:441-443 | at most five questions, a prefix of the approved ones in catalogue order, and all of them when there are at most five |
| Quiz.Strip | server.js:444 | the served item carries every field of the question except the right answer |
| Quiz.QuizFor | server.js:438-463 | 404 iff no approved question of the category exists; otherwise 1 to 5 items with `total` equal to their number, each approved and of the category, and item i is question i of the quiz set without its answer |
| Quiz.ApprovedAppend | server.js:591-592 | appending an approved question to the catalogue puts it after every approved question of its category already there |
| Quiz.Grade | server.js:481-498 | None (the thrown error) iff there are more answers than questions; otherwise the score is the number of positions answered right, and there is one record per answer judging it against the question at the same position |
| Quiz.HitsStep | server.js:486-488 | one position adds one point exactly when its answer is right |
| Quiz.HitsBelow | server.js:484-488 | the first n positions score at most n |
| Quiz.ScoreBounds | server.js:480-498 | a score never exceeds the number of answers nor the number of questions |
| Quiz.PendingQuestion | server.js:545-554 | a suggested question enters the queue unapproved |
| Quiz.ApprovalConservesQuestions | server.js:591-593 | approval moves a question from the queue to the catalogue; the ids over both lists are the same multiset |
| Groups.RecordScore | server.js:504 | the group's score for the user is overwritten; the other scores and every other field (members, status, id, category, creation time, current question) are unchanged |
| Groups.PlaceUser | server.js:90-113 | `findOrCreateGroup` followed by the enrolment of server.js:400-410: the user enters the first group of the category with room that is waiting; only when there is none is exactly one group appended, with the next id and no members before the user; the entered group keeps its id, category and creation time, gains the user at the end with score 0 (other scores kept) unless already a member, and is `ready` once it has two members; no other group changes |
| Groups.PlaceUserGrows | server.js:400-410 | placement only extends the registry: no group disappears, changes id, loses a member or stops being `ready` |
| Groups.RecordScoreKeepsInvariant | server.js:504 | recording a score keeps the registry invariant |
| Groups.AvailableHasRoom | server.js:92-96 | under the invariant, the group found for a newcomer has fewer than two members |
| Groups.OpenGroupKeepsInvariant | server.js:98-109 | opening an empty group with the next id keeps the registry invariant |
| Groups.AddToGroupKeepsInvariant | server.js:402-410 | adding a groupless user to an existing group keeps the registry invariant, provided the enlarged group stays well shaped |
| Groups.AppendGroupKeepsInvariant | server.js:98-110 | a new group holding one groupless user keeps the registry invariant |
| Groups.PlaceUserKeepsInvariant | server.js:400-410 | placing a user who is in no active group keeps the registry invariant |
| Groups.PlaceUserEnrols | server.js:400-410 | after placement the user is in the group exactly once, with score 0; the group is `ready` iff it has at least two members; it is the user's active group |
| Groups.OneActiveGroupPerUser | server.js:388-398 | under the invariant no user is an active member of two groups |
| Groups.ThirdJoinerOpensSecondGroup | server.js:408-410 | users 1 and 2 share group 1, which becomes `ready`; user 3 opens group 2 |
| Directory.RegistrationCheck | server.js:270-290 | 400 for a missing field, else for a taken user name, else for a taken e-mail, each iff its condition holds, in that order; no error iff all fields are present and both are free |
| Directory.ProfileById | server.js:634-644 | 404 iff no user has the id; otherwise the profile of a user with that id, without the password hash |
| Directory.MemberDetails | server.js:417-424 | at most one detail per member |
| Directory.MemberDetailsSound | server.js:417-424 | every detail carries the id of a member and is the id, name and avatar of the first user with that id |
| Directory.MemberDetailsAppend | server.js:417-424 | a member added at the end contributes its user's detail after the others, or nothing when no user has its id (`map` then `filter(Boolean)`, in member order) |
| Directory.UserIndexById | server.js:295 | under the counter invariant, the user with id `uid` sits at position `uid - 1` |
| Directory.MemberDetailsComplete | server.js:417-424 | when every member is registered, there is exactly one detail per member, in member order |
| Directory.CreditKeepsDirectory | server.js:502-503 | crediting gold and a finished quiz keeps the directory invariant |
| Directory.AdmissionKeepsDirectoryUnique | server.js:278-308 | admitting a request that passed the checks keeps ids, user names and e-mail addresses unique |
| Directory.AdmitUnchecked | server.js:292-308 | the handler's push as written appends a user with the next id and the requested name, leaving the others untouched |
| Directory.RacingRegistrationsDuplicateName | server.js:278-308 | two interleaved registrations of the same name both pass the checks and break uniqueness |
| Server.ActiveInCategory | server.js:369 | exactly the groups of the category that are not finished |
| Server.ActiveAppend | server.js:369 | a group added at the end is counted after the others, once, and only when it is of the category and not finished: the result is the order-preserving `filter` |
| Server.CategorySummaries | server.js:363-372 | one entry per fixed category, in order, counting its approved questions and its unfinished groups |
| Server.JoinRequest | server.js:375-435 | 404 iff the user is unknown; the user's active group iff they have one, with nothing changed; otherwise the registry, counter and group are exactly those of `PlaceUser` for the requested category (first fit, else one new group), and the group contains them |
| Server.JoinRequestPlaces | server.js:400-426 | joining keeps the registry invariant and only extends the registry. A user who joins is in the returned group once, with score 0, in a group of at most two (`ready` iff two), now their active group, with one detail per member: the id, name and avatar of that member, in member order |
| Server.Store.constructor | server.js:25-82 | the start-up state: no users, no groups, an empty queue and chat map, the sample catalogue, both counters at 1 |
| Server.Store.FindOrCreateGroup | server.js:90-113 | returns the first available group unchanged, or appends a new waiting group with the next id and an empty chat log |
| Server.Store.PlaceMember | server.js:400-410 | the registry and counter become those of `PlaceUser`; a chat log is opened exactly when a group is created |
| Server.Store.JoinGroup | server.js:375-435 | the answer and the new registry are those of `JoinRequest`; a chat log is opened with a new group; logs are only extended |
| Server.Store.RecordResult | server.js:500-504 | the score is added to the user's gold, their quiz count grows by one, and the group's score for them is overwritten |
| Server.Store.SubmitQuiz | server.js:466-523 | 404 with nothing changed for an unknown user or group; 500 with nothing changed when there are more answers than questions; otherwise the score is the number of right answers, it is at most five, and it is credited; result i judges answer i against question i of the quiz set |
| Server.Store.SuggestQuestion | server.js:526-568 | 404 for an unknown user, 400 for an incomplete question, otherwise exactly one unapproved entry appended to the queue |
| Server.Store.ApproveQuestion | server.js:579-605 | 404 with nothing changed when no pending question has the id; otherwise the first such question leaves the queue and an approved copy ends the catalogue; the ids over both lists are conserved |
| Server.Store.RejectQuestion | server.js:608-631 | 404 with nothing changed, or the first pending question with the id removed and the rest kept in order |
| Server.Store.Register | server.js:266-324 | a failed check gives its 400 and adds nobody; otherwise one student is appended under the next id and their profile returned; uniqueness is kept |
| Server.Connection.constructor | server.js:116 | a fresh socket is bound to no user and no group |
| Server.Connection.JoinGroup | server.js:120-148 | with a known user and group: the socket is bound, one welcome entry ends that group's log, and the whole log is returned; otherwise nothing changes. Groups are untouched |
| Server.Connection.SendMessage | server.js:151-174 | a bound, known user with a non-blank line appends exactly one `user` entry with the trimmed text to their group's log; otherwise nothing changes |
| Server.Connection.ShareResult | server.js:177-195 | a bound, known user appends exactly one `result` entry with the score to their group's log; otherwise nothing changes; group scores are untouched |

## Left out

- HTTP routing, CORS, static files, the HTML landing page and `listen` are plumbing, not logic.
- Login (server.js:327-360) and the `disconnect` event are left out, because they depend on bcrypt comparison or only log.
- Password hashing is an opaque value passed in as `hash`, because bcrypt is a foreign call.
- Message ids (`generateId`) are caller-supplied parameters, because they come from `Math.random`.
- Timestamps and the `Date.now()` question id are caller-supplied parameters, because they come from the clock.
- Socket.IO rooms and broadcasting are not modelled. The entry appended is returned instead, and the connection keeps only its two bound fields.
- `console` output is not modelled.
- The German message texts and emoji are not modelled. Chat bodies keep only their parameters (user name, text, score).
- The `percentage` and `timeSpent` fields of the quiz result are not modelled: the first is floating point and the second is echoed back unchanged.
- GET /api/admin/pending-questions only returns the queue as it is, so it has no member of its own.
- JavaScript's dynamic typing is not modelled. Answers and `correct` are integers compared exactly. Chat messages are strings. Request fields are of the expected type, with a missing one given as the empty string or None. `parseInt` of a route id is taken to give an integer.
- Object aliasing is not modelled. Groups and users are values in sequences, updated in place by position. This is equivalent here because nothing else holds a reference to them.
- Handlers interleaving at `await` is modelled only for registration, the one modelled handler that awaits (see Findings).
- The category is not validated against the fixed list, because the server does not validate it either.
- Server.Connection.JoinGroup: requires that a bound group has a chat log (`BoundIn`). The server keeps this because a group is never removed.
- Server.Connection.SendMessage: requires the same `BoundIn`.
- Server.Connection.ShareResult: requires the same `BoundIn`.

## Findings

| source | as written | input that shows it | evidently intended | confidence | as-written member | corrected member |
|---|---|---|---|---|---|---|
| server.js:278-308 | the uniqueness checks run before `await hashPassword(password)`, and the push after it runs without checking again | two registrations of user name "anna" arriving together against an empty directory: both pass the checks before either is pushed, giving users 1 and 2 both named "anna" | user names and e-mail addresses stay unique | medium, not executed | Directory.RacingRegistrationsDuplicateName | Server.Store.Register |

=== FILE: chat.dfy ===
/** The per-group chat log: the shape of a log entry, the three kinds of entry
    the socket handlers build, and JavaScript's `String.prototype.trim`, which
    decides whether a chat body is blank (server.js:120-195). */
module Chat {
  import opened Common

  /** The `type` field of an entry. */
  datatype Kind = SystemKind | UserKind | ResultKind

  /** The `userId` field of an entry: the string 'system' or the sender's id. */
  datatype Author = SystemAuthor | Member(userId: int)

  /** The `message` field. Welcome and result texts are German templates
      around the user name (and the score); only their parameters are kept. */
  datatype Body =
    | Welcome(username: string)
    | Text(text: string)
    | Announcement(username: string, score: int, totalQuestions: int)

  /** One log entry. `id` comes from a random generator and `timestamp` from
      the clock; both are supplied by the caller. */
  datatype ChatMessage = ChatMessage(
    id: string,
    author: Author,
    displayName: string,
    avatar: Option<string>,
    body: Body,
    timestamp: string,
    kind: Kind)

  /** The persona that signs welcome messages. */
  const CaptainName := "Käpt'n Blackbeard"

  /** The persona that signs result announcements. */
  const QuizMasterName := "Quiz-Master"

  /** The `system` entry appended when a user's socket joins a group. */
  function WelcomeMessage(id: string, username: string, now: string): ChatMessage
  {
    ChatMessage(id, SystemAuthor, CaptainName, None, Welcome(username), now, SystemKind)
  }

  /** The `user` entry for a chat line; `text` is the already trimmed body. */
  function UserMessage(id: string, userId: int, username: string, avatar: string, text: string, now: string): ChatMessage
  {
    ChatMessage(id, Member(userId), username, Some(avatar), Text(text), now, UserKind)
  }

  /** The `result` entry announcing a score. */
  function ResultMessage(id: string, username: string, score: int, total: int, now: string): ChatMessage
  {
    ChatMessage(id, SystemAuthor, QuizMasterName, None, Announcement(username, score, total), now, ResultKind)
  }

  /** Every log that existed before still exists, and each old log is a
      prefix of its new version: logs are only ever appended to. */
  ghost predicate LogsExtend(before: map<int, seq<ChatMessage>>, after: map<int, seq<ChatMessage>>)
  {
    forall g :: g in before ==> g in after && before[g] <= after[g]
  }

  /** The characters `trim` removes: ECMAScript's WhiteSpace (tab, vertical
      tab, form feed, no-break space, byte order mark and every space
      separator) and LineTerminator (LF, CR, line and paragraph separator). */
  predicate IsTrimmable(c: char)
  {
    || c == '\t' || c == '\n' || c == '\U{000B}' || c == '\U{000C}' || c == '\r'
    || c == ' ' || c == '\U{00A0}' || c == '\U{1680}' || ('\U{2000}' <= c <= '\U{200A}')
    || c == '\U{2028}' || c == '\U{2029}' || c == '\U{202F}' || c == '\U{205F}'
    || c == '\U{3000}' || c == '\U{FEFF}'
  }

  /** The number of trimmable characters at the start of `s`. */
  function LeadingBlanks(s: string): (n: nat)
    ensures n <= |s|
    ensures forall k :: 0 <= k < n ==> IsTrimmable(s[k])
    ensures n < |s| ==> !IsTrimmable(s[n])
  {
    if |s| > 0 && IsTrimmable(s[0]) then 1 + LeadingBlanks(s[1..]) else 0
  }

  /** The number of trimmable characters at the end of `s`. */
  function TrailingBlanks(s: string): (n: nat)
    ensures n <= |s|
    ensures forall k :: |s| - n <= k < |s| ==> IsTrimmable(s[k])
    ensures n < |s| ==> !IsTrimmable(s[|s| - 1 - n])
  {
    if |s| > 0 && IsTrimmable(s[|s| - 1]) then 1 + TrailingBlanks(s[..|s| - 1]) else 0
  }

  /** `s.trim()`: the longest piece of `s` that neither starts nor ends with a
      trimmable character, everything around it being trimmable. */
  function Trim(s: string): (t: string)
    ensures LeadingBlanks(s) + |t| <= |s|
    ensures t == s[LeadingBlanks(s)..LeadingBlanks(s) + |t|]
    ensures forall k :: LeadingBlanks(s) + |t| <= k < |s| ==> IsTrimmable(s[k])
    ensures |t| > 0 ==> !IsTrimmable(t[0]) && !IsTrimmable(t[|t| - 1])
    ensures t == [] <==> forall k :: 0 <= k < |s| ==> IsTrimmable(s[k])
  {
    var rest := s[LeadingBlanks(s)..];
    rest[..|rest| - TrailingBlanks(rest)]
  }

  /** Trimming a trimmed text changes nothing: the body stored for a chat
      line is its own trim. */
  lemma TrimIdempotent(s: string)
    ensures Trim(Trim(s)) == Trim(s)
  {
    var t := Trim(s);
    assert LeadingBlanks(t) == 0;
    assert TrailingBlanks(t) == 0;
  }
}

=== FILE: common.dfy ===
/** Vocabulary shared by the whole model: an optional value, JavaScript's
    first-match search over an array (`Array.prototype.find` and `findIndex`)
    and the removal of one element (`splice(i, 1)`). */
module Common {

  datatype Option<T> = None | Some(value: T)

  /** The index of the first element of `s` that satisfies `p`, or None where
      `findIndex` answers -1 (and `find` answers `undefined`). */
  function FirstMatch<T>(s: seq<T>, p: T -> bool): (r: Option<nat>)
    ensures r.Some? ==> r.value < |s| && p(s[r.value])
    ensures r.Some? ==> forall j :: 0 <= j < r.value ==> !p(s[j])
    ensures r.None? <==> forall j :: 0 <= j < |s| ==> !p(s[j])
  {
    if |s| == 0 then None
    else if p(s[0]) then Some(0)
    else match FirstMatch(s[1..], p)
      case None => None
      case Some(k) => Some(k + 1)
  }

  /** `s.splice(i, 1)`: the sequence without its i-th element, the others in
      their order. */
  function RemoveAt<T>(s: seq<T>, i: nat): (r: seq<T>)
    requires i < |s|
    ensures |r| == |s| - 1
    ensures forall j :: 0 <= j < i ==> r[j] == s[j]
    ensures forall j :: i <= j < |r| ==> r[j] == s[j + 1]
    ensures multiset(r) + multiset{s[i]} == multiset(s)
  {
    assert s == s[..i] + [s[i]] + s[i + 1..];
    s[..i] + s[i + 1..]
  }

  /** No value occurs twice in `s`. */
  ghost predicate NoDuplicates<T>(s: seq<T>)
  {
    forall i, j :: 0 <= i < j < |s| ==> s[i] != s[j]
  }

  /** No value occurs in both `a` and `b`. */
  ghost predicate Disjoint<T>(a: seq<T>, b: seq<T>)
  {
    forall k :: 0 <= k < |a| ==> a[k] !in b
  }
}

=== FILE: directory.dfy ===
/** Registered users: the user record, the checks of POST /api/register, the
    public projections used by the profile and join-group responses, and the
    invariant that ids, user names and e-mail addresses are unique
    (server.js:265-324, 415-425, 633-644). */
module Directory {
  import opened Common

  datatype Role = Student | Admin

  /** A registered user. `passwordHash` is the bcrypt hash, an opaque value
      supplied by the caller; `createdAt` is a clock reading. */
  datatype User = User(
    id: int,
    prename: string,
    surname: string,
    username: string,
    email: string,
    passwordHash: string,
    avatar: string,
    role: Role,
    totalGoldtaler: int,
    completedQuizzes: int,
    createdAt: string)

  /** The user as the API shows it: `{ ...user, password: undefined }`. */
  datatype Profile = Profile(
    id: int,
    prename: string,
    surname: string,
    username: string,
    email: string,
    avatar: string,
    role: Role,
    totalGoldtaler: int,
    completedQuizzes: int,
    createdAt: string)

  /** The body of a registration request; a missing field is the empty string. */
  datatype RegistrationRequest = RegistrationRequest(
    prename: string,
    surname: string,
    username: string,
    email: string,
    password: string,
    avatar: string)

  /** The three 400 answers of the registration handler. */
  datatype RegistrationError = MissingField | UsernameTaken | EmailTaken

  /** One entry of `memberDetails` in the join-group response. */
  datatype MemberDetail = MemberDetail(id: int, username: string, avatar: string)

  /** The avatar a user gets when the request names none. */
  const DefaultAvatar := "avatar1.jpeg"

  /** The position of the user with id `uid` (`users.find(u => u.id === uid)`). */
  function UserIndex(users: seq<User>, uid: int): Option<nat>
  {
    FirstMatch(users, (u: User) => u.id == uid)
  }

  predicate UsernameTakenIn(users: seq<User>, username: string)
  {
    exists i :: 0 <= i < |users| && users[i].username == username
  }

  predicate EmailTakenIn(users: seq<User>, email: string)
  {
    exists i :: 0 <= i < |users| && users[i].email == email
  }

  predicate HasAllFields(req: RegistrationRequest)
  {
    req.prename != "" && req.surname != "" && req.username != "" && req.email != "" && req.password != ""
  }

  /** server.js:270-290: the checks in the order the handler makes them. */
  function RegistrationCheck(users: seq<User>, req: RegistrationRequest): (r: Option<RegistrationError>)
    ensures r == Some(MissingField) <==> !HasAllFields(req)
    ensures r == Some(UsernameTaken) <==> HasAllFields(req) && UsernameTakenIn(users, req.username)
    ensures r == Some(EmailTaken) <==>
      HasAllFields(req) && !UsernameTakenIn(users, req.username) && EmailTakenIn(users, req.email)
    ensures r.None? <==>
      HasAllFields(req) && !UsernameTakenIn(users, req.username) && !EmailTakenIn(users, req.email)
  {
    if !HasAllFields(req) then Some(MissingField)
    else if FirstMatch(users, (u: User) => u.username == req.username).Some? then Some(UsernameTaken)
    else if FirstMatch(users, (u: User) => u.email == req.email).Some? then Some(EmailTaken)
    else None
  }

  /** server.js:294-306: the new student, with no gold and no quiz yet. */
  function NewUser(id: int, req: RegistrationRequest, hash: string, now: string): User
  {
    User(id, req.prename, req.surname, req.username, req.email, hash,
         if req.avatar == "" then DefaultAvatar else req.avatar,
         Student, 0, 0, now)
  }

  function ProfileOf(u: User): Profile
  {
    Profile(u.id, u.prename, u.surname, u.username, u.email, u.avatar, u.role,
            u.totalGoldtaler, u.completedQuizzes, u.createdAt)
  }

  /** GET /api/profile/:id (server.js:634-644): the user with that id,
      without the password hash, or None for the 404. */
  function ProfileById(users: seq<User>, id: int): (r: Option<Profile>)
    ensures r.None? <==> forall i :: 0 <= i < |users| ==> users[i].id != id
    ensures r.Some? ==> r.value.id == id && exists i :: 0 <= i < |users| && r.value == ProfileOf(users[i])
  {
    match UserIndex(users, id)
    case None => None
    case Some(i) => Some(ProfileOf(users[i]))
  }

  function DetailOf(u: User): MemberDetail
  {
    MemberDetail(u.id, u.username, u.avatar)
  }

  /** server.js:417-424: each member id looked up among the users, unknown
      ids dropped (`.filter(Boolean)`). */
  function MemberDetails(users: seq<User>, members: seq<int>): (r: seq<MemberDetail>)
    ensures |r| <= |members|
  {
    if members == [] then []
    else
      var rest := MemberDetails(users, members[1..]);
      match UserIndex(users, members[0])
      case Some(i) => [DetailOf(users[i])] + rest
      case None => rest
  }

  /** `d` is the detail of the first user whose id is `d.id`, and that id is
      one of `members`. */
  ghost predicate DetailOfMember(users: seq<User>, members: seq<int>, d: MemberDetail)
  {
    && d.id in members && UserIndex(users, d.id).Some?
    && d == DetailOf(users[UserIndex(users, d.id).value])
  }

  /** Every detail belongs to a member: it carries an id from `members` and
      is the detail of the first user with that id. */
  lemma {:induction false} MemberDetailsSound(users: seq<User>, members: seq<int>)
    ensures forall k :: 0 <= k < |MemberDetails(users, members)| ==> DetailOfMember(users, members, MemberDetails(users, members)[k])
  {
    if members != [] {
      var tail := members[1..];
      MemberDetailsSound(users, tail);
      var rest := MemberDetails(users, tail);
      var r := MemberDetails(users, members);
      var skip := if UserIndex(users, members[0]).Some? then 1 else 0;
      if skip == 1 {
        var i := UserIndex(users, members[0]).value;
        assert r == [DetailOf(users[i])] + rest;
        assert users[i].id == members[0];
      } else {
        assert r == rest;
      }
      forall k | skip <= k < |r| ensures DetailOfMember(users, members, r[k]) {
        assert r[k] == rest[k - skip];
        assert DetailOfMember(users, tail, rest[k - skip]);
      }
    }
  }

  /** A member id added at the end contributes after the others: the detail
      of the first user with that id, or nothing when no user has it. The
      result is `map` then `filter(Boolean)`, in member order. */
  lemma {:induction false} MemberDetailsAppend(users: seq<User>, members: seq<int>, m: int)
    ensures MemberDetails(users, members + [m])
         == MemberDetails(users, members)
            + (match UserIndex(users, m) case Some(i) => [DetailOf(users[i])] case None => [])
  {
    if members == [] {
      assert [] + [m] == [m];
      assert [m][1..] == [];
    } else {
      assert (members + [m])[1..] == members[1..] + [m];
      MemberDetailsAppend(users, members[1..], m);
    }
  }

  /** The directory invariant: ids follow the counter from 1, and no user
      name and no e-mail address is registered twice. */
  ghost predicate DirectoryInv(users: seq<User>, nextUserId: int)
  {
    && IdsFollowCounter(users, nextUserId)
    && (forall i, j :: 0 <= i < j < |users| ==> users[i].username != users[j].username)
    && (forall i, j :: 0 <= i < j < |users| ==> users[i].email != users[j].email)
  }

  /** Ids are handed out by the counter, from 1, and never reused. */
  ghost predicate IdsFollowCounter(users: seq<User>, nextUserId: int)
  {
    && nextUserId == |users| + 1
    && (forall i :: 0 <= i < |users| ==> users[i].id == i + 1)
  }

  /** Under the invariant the user with id `uid` sits at position uid - 1. */
  lemma UserIndexById(users: seq<User>, nextUserId: int, uid: int)
    requires IdsFollowCounter(users, nextUserId)
    ensures UserIndex(users, uid) == if 1 <= uid <= |users| then Some(uid - 1) else None
  {
    if 1 <= uid <= |users| {
      assert users[uid - 1].id == uid;
    }
  }

  /** For members who are all registered, nothing is dropped: one detail per
      member, in member order, carrying that member's id. */
  lemma {:induction false} MemberDetailsComplete(users: seq<User>, nextUserId: int, members: seq<int>)
    requires IdsFollowCounter(users, nextUserId)
    requires forall k :: 0 <= k < |members| ==> 1 <= members[k] <= |users|
    ensures |MemberDetails(users, members)| == |members|
    ensures forall k :: 0 <= k < |members| ==>
      MemberDetails(users, members)[k] == DetailOf(users[members[k] - 1])
  {
    if members != [] {
      var tail := members[1..];
      assert forall k :: 0 <= k < |tail| ==> tail[k] == members[k + 1];
      MemberDetailsComplete(users, nextUserId, tail);
      UserIndexById(users, nextUserId, members[0]);
      var rest := MemberDetails(users, tail);
      var r := MemberDetails(users, members);
      assert r == [DetailOf(users[members[0] - 1])] + rest;
      forall k | 0 < k < |members| ensures r[k] == DetailOf(users[members[k] - 1]) {
        assert r[k] == rest[k - 1];
      }
    }
  }

  /** Crediting a quiz to a user touches neither ids, names nor addresses. */
  lemma CreditKeepsDirectory(users: seq<User>, nextUserId: int, ui: nat, score: int)
    requires DirectoryInv(users, nextUserId)
    requires ui < |users|
    ensures DirectoryInv(users[ui := users[ui].(totalGoldtaler := users[ui].totalGoldtaler + score,
                                                completedQuizzes := users[ui].completedQuizzes + 1)], nextUserId)
  {
  }

  /** Admitting a request that passed the checks keeps the directory
      invariant: the new user gets the next id and a fresh name and address. */
  lemma AdmissionKeepsDirectoryUnique(users: seq<User>, nextUserId: int, req: RegistrationRequest, hash: string, now: string)
    requires DirectoryInv(users, nextUserId)
    requires RegistrationCheck(users, req).None?
    ensures DirectoryInv(users + [NewUser(nextUserId, req, hash, now)], nextUserId + 1)
  {
    var u := NewUser(nextUserId, req, hash, now);
    var after := users + [u];
    forall i, j | 0 <= i < j < |after|
      ensures after[i].username != after[j].username && after[i].email != after[j].email
    {
      if j == |users| {
        assert after[i] == users[i];
      }
    }
  }

  /** The second half of the registration handler as written
      (server.js:292-308): after `await hashPassword` the new user is built
      from the counter and pushed, with no second look at the directory. */
  function AdmitUnchecked(users: seq<User>, nextUserId: int, req: RegistrationRequest, hash: string, now: string)
    : (after: seq<User>)
    ensures |after| == |users| + 1 && after[..|users|] == users
    ensures after[|users|].id == nextUserId && after[|users|].username == req.username
    ensures after[|users|].email == req.email
  {
    users + [NewUser(nextUserId, req, hash, now)]
  }

  /** The registration handler as written runs in two steps: the checks
      (server.js:270-290), then, once the hash is ready, AdmitUnchecked.
      While one request waits for its hash the event loop runs others, so two
      requests for the same user name can both pass the checks against the
      same directory and both be admitted, the second under the next id. */
  lemma RacingRegistrationsDuplicateName(hash1: string, hash2: string, now: string)
    ensures var req := RegistrationRequest("Anna", "Berg", "anna", "anna@example.org", "secret", "");
            var first := AdmitUnchecked([], 1, req, hash1, now);
            var second := AdmitUnchecked(first, 2, req, hash2, now);
            && RegistrationCheck([], req).None?
            && second[0].username == second[1].username
            && !DirectoryInv(second, 3)
  {
  }
}

=== FILE: groups.dfy ===
/** Study groups and matchmaking: the group record, the first-fit search of
    `findOrCreateGroup` and the membership rules of POST /api/join-group
    (server.js:90-113, 375-435). */
module Groups {
  import opened Common

  /** `waiting`, `ready`, `playing`, `finished`; only the first two are ever
      assigned by the server. */
  datatype Status = Waiting | Ready | Playing | Finished

  /** A group as the registry holds it. `currentQuestion` is always 0;
      `createdAt` is a clock reading supplied by the caller. */
  datatype Group = Group(
    id: int,
    category: string,
    members: seq<int>,
    status: Status,
    currentQuestion: int,
    scores: map<int, int>,
    createdAt: string)

  /** Groups with fewer members than this accept newcomers. */
  const Capacity := 5

  /** A group whose membership reaches this is set to `ready`. */
  const StartThreshold := 2

  /** The group `findOrCreateGroup` creates when no group is available. */
  function NewGroup(id: int, category: string, now: string): Group
  {
    Group(id, category, [], Waiting, 0, map[], now)
  }

  /** The predicate of `groups.find` in `findOrCreateGroup`. */
  predicate Eligible(g: Group, category: string)
  {
    g.category == category && |g.members| < Capacity && g.status == Waiting
  }

  /** The predicate of the "already in an active group" search. */
  predicate ActiveMember(g: Group, uid: int)
  {
    uid in g.members && g.status != Finished
  }

  /** The first group a newcomer to `category` may enter. */
  function Available(groups: seq<Group>, category: string): Option<nat>
  {
    FirstMatch(groups, (g: Group) => Eligible(g, category))
  }

  /** The first non-finished group that has `uid` as a member. */
  function ActiveGroupOf(groups: seq<Group>, uid: int): Option<nat>
  {
    FirstMatch(groups, (g: Group) => ActiveMember(g, uid))
  }

  /** The position of the group with id `gid`. */
  function GroupIndex(groups: seq<Group>, gid: int): Option<nat>
  {
    FirstMatch(groups, (g: Group) => g.id == gid)
  }

  /** server.js:402-410: append the user once with score 0, then mark the
      group ready when it has reached the start threshold. */
  function Enrol(g: Group, uid: int): Group
  {
    var joined := if uid in g.members then g
                  else g.(members := g.members + [uid], scores := g.scores[uid := 0]);
    if |joined.members| >= StartThreshold then joined.(status := Ready) else joined
  }

  /** `group.scores[userId] = goldtaler`: the last submission wins. */
  function RecordScore(g: Group, uid: int, score: int): (r: Group)
    ensures r.members == g.members && r.status == g.status && r.id == g.id
    ensures r.scores.Keys == g.scores.Keys + {uid} && r.scores[uid] == score
    ensures forall u :: u in g.scores && u != uid ==> r.scores[u] == g.scores[u]
    ensures r.(scores := g.scores) == g
  {
    g.(scores := g.scores[uid := score])
  }

  /** The registry after a user is placed: the groups, the position of the
      group they entered, the next group id and whether a group was created. */
  datatype Placement = Placement(groups: seq<Group>, index: nat, nextGroupId: int, created: bool)

  /** `findOrCreateGroup(category)` followed by the enrolment of `uid`
      (server.js:90-113, 400-410). The user enters the first available group
      in registry order; only when there is none is exactly one group
      appended, with the next counter id and an empty membership. The
      entered group keeps its id, category and creation time, gains the user
      at the end with score 0 unless already a member, and is `ready` once it
      has StartThreshold members. No other group changes. */
  function PlaceUser(groups: seq<Group>, nextGroupId: int, uid: int, category: string, now: string): (p: Placement)
    ensures p.index < |p.groups|
    ensures Available(groups, category).Some? ==>
      && !p.created && p.index == Available(groups, category).value
      && |p.groups| == |groups| && p.nextGroupId == nextGroupId
    ensures Available(groups, category).None? ==>
      && p.created && p.index == |groups| && |p.groups| == |groups| + 1
      && p.nextGroupId == nextGroupId + 1
      && p.groups[p.index].id == nextGroupId && p.groups[p.index].category == category
    ensures forall j :: 0 <= j < |groups| && j != p.index ==> p.groups[j] == groups[j]
    ensures uid in p.groups[p.index].members
    ensures var before := if p.created then NewGroup(nextGroupId, category, now) else groups[p.index];
      var after := p.groups[p.index];
      && after.id == before.id && after.category == category
      && after.createdAt == before.createdAt && after.currentQuestion == before.currentQuestion
      && (uid !in before.members ==> after.members == before.members + [uid] && after.scores == before.scores[uid := 0])
      && (uid in before.members ==> after.members == before.members && after.scores == before.scores)
      && after.status == (if |after.members| >= StartThreshold then Ready else before.status)
  {
    match Available(groups, category)
    case Some(k) =>
      Placement(groups[k := Enrol(groups[k], uid)], k, nextGroupId, false)
    case None =>
      Placement(groups + [Enrol(NewGroup(nextGroupId, category, now), uid)], |groups|, nextGroupId + 1, true)
  }

  /** The shape every group keeps: at most StartThreshold members (so far
      below Capacity), `ready` exactly when full to the threshold, never
      `playing` or `finished`, no member twice, and a score for each member. */
  ghost predicate WellShaped(g: Group)
  {
    && |g.members| <= StartThreshold
    && (g.status == Ready <==> |g.members| == StartThreshold)
    && (g.status == Waiting || g.status == Ready)
    && NoDuplicates(g.members)
    && (forall m :: m in g.members ==> m in g.scores)
  }

  /** The registry invariant: ids follow the counter from 1, every group is
      well shaped, members are registered users (ids 1..userCount), and no
      user belongs to two groups. */
  ghost predicate RegistryInv(groups: seq<Group>, nextGroupId: int, userCount: nat)
  {
    && nextGroupId == |groups| + 1
    && (forall i :: 0 <= i < |groups| ==> groups[i].id == i + 1 && WellShaped(groups[i]))
    && (forall i, j :: 0 <= i < |groups| && 0 <= j < |groups[i].members| ==> 1 <= groups[i].members[j] <= userCount)
    && (forall i, j :: 0 <= i < |groups| && 0 <= j < |groups| && i != j ==> Disjoint(groups[i].members, groups[j].members))
  }

  /** No group disappears, changes id, loses a member or falls back from
      `ready`: what one handler leaves, the next one extends. */
  ghost predicate RegistryGrows(before: seq<Group>, after: seq<Group>)
  {
    && |before| <= |after|
    && forall i :: 0 <= i < |before| ==>
         && after[i].id == before[i].id
         && before[i].members <= after[i].members
         && (before[i].status == Ready ==> after[i].status == Ready)
  }

  /** Placing a user only extends the registry. */
  lemma PlaceUserGrows(groups: seq<Group>, nextGroupId: int, uid: int, category: string, now: string)
    ensures RegistryGrows(groups, PlaceUser(groups, nextGroupId, uid, category, now).groups)
  {
    var p := PlaceUser(groups, nextGroupId, uid, category, now);
    if !p.created {
      assert groups[p.index].members <= Enrol(groups[p.index], uid).members;
    }
  }

  /** Recording a score changes neither membership nor status, so the
      registry invariant survives quiz submissions. */
  lemma RecordScoreKeepsInvariant(groups: seq<Group>, nextGroupId: int, userCount: nat, gi: nat, uid: int, score: int)
    requires RegistryInv(groups, nextGroupId, userCount)
    requires gi < |groups|
    ensures RegistryInv(groups[gi := RecordScore(groups[gi], uid, score)], nextGroupId, userCount)
    ensures RegistryGrows(groups, groups[gi := RecordScore(groups[gi], uid, score)])
  {
    var after := groups[gi := RecordScore(groups[gi], uid, score)];
    assert forall i :: 0 <= i < |groups| ==> after[i].members == groups[i].members;
  }

  /** A group the registry returns as available has at most one member. */
  lemma AvailableHasRoom(groups: seq<Group>, nextGroupId: int, userCount: nat, category: string)
    requires RegistryInv(groups, nextGroupId, userCount)
    requires Available(groups, category).Some?
    ensures |groups[Available(groups, category).value].members| < StartThreshold
  {
    var k := Available(groups, category).value;
    assert Eligible(groups[k], category);
  }

  /** Opening a new, empty group keeps the registry invariant. */
  lemma OpenGroupKeepsInvariant(groups: seq<Group>, nextGroupId: int, userCount: nat, category: string, now: string)
    requires RegistryInv(groups, nextGroupId, userCount)
    ensures RegistryInv(groups + [NewGroup(nextGroupId, category, now)], nextGroupId + 1, userCount)
  {
    var after := groups + [NewGroup(nextGroupId, category, now)];
    forall i, j | 0 <= i < |after| && 0 <= j < |after| && i != j
      ensures Disjoint(after[i].members, after[j].members)
    {
      if i < |groups| && j < |groups| {
        assert after[i] == groups[i] && after[j] == groups[j];
      }
    }
  }

  /** Putting a user who is in no group into an existing group keeps the
      registry invariant, provided the result is well shaped. */
  lemma AddToGroupKeepsInvariant(groups: seq<Group>, nextGroupId: int, userCount: nat, k: nat, uid: int, g: Group)
    requires RegistryInv(groups, nextGroupId, userCount)
    requires k < |groups| && 1 <= uid <= userCount
    requires forall i :: 0 <= i < |groups| ==> uid !in groups[i].members
    requires g.id == groups[k].id && WellShaped(g) && g.members == groups[k].members + [uid]
    ensures RegistryInv(groups[k := g], nextGroupId, userCount)
  {
    var after := groups[k := g];
    forall i, j | 0 <= i < |after| && 0 <= j < |after| && i != j
      ensures Disjoint(after[i].members, after[j].members)
    {
      if i == k {
        assert Disjoint(groups[k].members, groups[j].members);
      } else if j == k {
        assert Disjoint(groups[i].members, groups[k].members);
      } else {
        assert after[i] == groups[i] && after[j] == groups[j];
      }
    }
  }

  /** Appending a one-member group for a user who is in no group keeps the
      registry invariant. */
  lemma AppendGroupKeepsInvariant(groups: seq<Group>, nextGroupId: int, userCount: nat, uid: int, g: Group)
    requires RegistryInv(groups, nextGroupId, userCount)
    requires 1 <= uid <= userCount
    requires forall i :: 0 <= i < |groups| ==> uid !in groups[i].members
    requires g.id == nextGroupId && WellShaped(g) && g.members == [uid]
    ensures RegistryInv(groups + [g], nextGroupId + 1, userCount)
  {
    var after := groups + [g];
    forall i, j | 0 <= i < |after| && 0 <= j < |after| && i != j
      ensures Disjoint(after[i].members, after[j].members)
    {
      if i < |groups| && j < |groups| {
        assert after[i] == groups[i] && after[j] == groups[j];
      }
    }
  }

  /** Placing a user who is in no active group keeps the registry invariant:
      no group grows beyond two members, and the user ends up in one group. */
  lemma PlaceUserKeepsInvariant(groups: seq<Group>, nextGroupId: int, userCount: nat, uid: int, category: string, now: string)
    requires RegistryInv(groups, nextGroupId, userCount)
    requires 1 <= uid <= userCount
    requires ActiveGroupOf(groups, uid).None?
    ensures var p := PlaceUser(groups, nextGroupId, uid, category, now);
      RegistryInv(p.groups, p.nextGroupId, userCount)
  {
    var p := PlaceUser(groups, nextGroupId, uid, category, now);
    assert forall i :: 0 <= i < |groups| ==> uid !in groups[i].members by {
      forall i | 0 <= i < |groups| ensures uid !in groups[i].members {
        assert !ActiveMember(groups[i], uid);
      }
    }
    if p.created {
      var g := Enrol(NewGroup(nextGroupId, category, now), uid);
      assert g.members == [uid];
      assert p.groups == groups + [g];
      AppendGroupKeepsInvariant(groups, nextGroupId, userCount, uid, g);
    } else {
      var k := p.index;
      AvailableHasRoom(groups, nextGroupId, userCount, category);
      var g := Enrol(groups[k], uid);
      assert g.members == groups[k].members + [uid];
      assert p.groups == groups[k := g];
      AddToGroupKeepsInvariant(groups, nextGroupId, userCount, k, uid, g);
    }
  }

  /** After a successful placement the user appears exactly once in the
      chosen group with score 0, the group is `ready` exactly when it has at
      least StartThreshold members, and it is the user's one active group. */
  lemma PlaceUserEnrols(groups: seq<Group>, nextGroupId: int, userCount: nat, uid: int, category: string, now: string)
    requires RegistryInv(groups, nextGroupId, userCount)
    requires 1 <= uid <= userCount
    requires ActiveGroupOf(groups, uid).None?
    ensures var p := PlaceUser(groups, nextGroupId, uid, category, now);
      && multiset(p.groups[p.index].members)[uid] == 1
      && p.groups[p.index].scores[uid] == 0
      && (p.groups[p.index].status == Ready <==> |p.groups[p.index].members| >= StartThreshold)
      && ActiveGroupOf(p.groups, uid) == Some(p.index)
  {
    var p := PlaceUser(groups, nextGroupId, uid, category, now);
    var k := p.index;
    PlaceUserKeepsInvariant(groups, nextGroupId, userCount, uid, category, now);
    var before := if p.created then NewGroup(nextGroupId, category, now) else groups[k];
    assert !ActiveMember(before, uid);
    assert uid !in before.members;
    if !p.created {
      AvailableHasRoom(groups, nextGroupId, userCount, category);
    }
    assert p.groups[k].members == before.members + [uid];
    assert multiset(before.members)[uid] == 0;
    forall j | 0 <= j < k ensures !ActiveMember(p.groups[j], uid) {
      assert Disjoint(p.groups[k].members, p.groups[j].members);
      assert p.groups[k].members[|before.members|] == uid;
    }
  }

  /** Under the invariant no user is an active member of two groups. */
  lemma OneActiveGroupPerUser(groups: seq<Group>, nextGroupId: int, userCount: nat, uid: int, i: nat, j: nat)
    requires RegistryInv(groups, nextGroupId, userCount)
    requires i < |groups| && j < |groups|
    requires ActiveMember(groups[i], uid) && ActiveMember(groups[j], uid)
    ensures i == j
  {
  }

  /** With the threshold at two, the third user asking for a category does
      not join the first group (now `ready`) but opens a second one. */
  lemma ThirdJoinerOpensSecondGroup(now: string)
    ensures var p1 := PlaceUser([], 1, 1, "Mathematik", now);
            var p2 := PlaceUser(p1.groups, p1.nextGroupId, 2, "Mathematik", now);
            var p3 := PlaceUser(p2.groups, p2.nextGroupId, 3, "Mathematik", now);
            && p1.created && p1.groups[0].members == [1] && p1.groups[0].status == Waiting
            && !p2.created && p2.groups[0].members == [1, 2] && p2.groups[0].status == Ready
            && p3.created && p3.index == 1 && p3.groups[1].id == 2 && p3.groups[1].members == [3]
            && p3.groups[1].status == Waiting && p3.groups[0] == p2.groups[0]
  {
    var p1 := PlaceUser([], 1, 1, "Mathematik", now);
    assert p1.groups[0].members == [] + [1];
    var p2 := PlaceUser(p1.groups, p1.nextGroupId, 2, "Mathematik", now);
    assert Eligible(p1.groups[0], "Mathematik");
    assert p2.groups[0].members == [1] + [2];
    var p3 := PlaceUser(p2.groups, p2.nextGroupId, 3, "Mathematik", now);
    assert !Eligible(p2.groups[0], "Mathematik");
    assert p3.groups[1].members == [] + [3];
  }
}

=== FILE: quiz.dfy ===
/** The question catalogue: approved and pending questions, the selection of
    at most five approved questions per category, grading of submitted
    answers, and the moderation queue (server.js:438-631). */
module Quiz {
  import opened Common

  /** A catalogue entry. `correct` is the index of the right option; sample
      questions carry no `createdAt`. */
  datatype Question = Question(
    id: int,
    text: string,
    options: seq<string>,
    correct: int,
    category: string,
    approved: bool,
    createdBy: string,
    createdAt: Option<string>)

  /** A question as it is served to players: every field but `correct`. */
  datatype QuizItem = QuizItem(
    id: int,
    text: string,
    options: seq<string>,
    category: string,
    approved: bool,
    createdBy: string,
    createdAt: Option<string>)

  /** The grading record of one answer. */
  datatype AnswerResult = AnswerResult(
    questionId: int,
    text: string,
    userAnswer: int,
    correctAnswer: int,
    isCorrect: bool,
    options: seq<string>)

  datatype Grading = Grading(score: nat, results: seq<AnswerResult>)

  /** Answer of the read-only quiz fetch: 404 or the stripped questions. */
  datatype QuizResponse = NoQuestions | Questions(items: seq<QuizItem>, total: nat)

  /** How many questions a quiz has at most (`slice(0, 5)`). */
  const QuizLength := 5

  /** `questions.filter(q => q.category === category && q.approved)`. */
  function Approved(qs: seq<Question>, category: string): (r: seq<Question>)
    ensures |r| <= |qs|
    ensures forall q :: q in r ==> q in qs && q.approved && q.category == category
    ensures forall q :: q in qs && q.approved && q.category == category ==> q in r
  {
    if qs == [] then []
    else
      var rest := Approved(qs[1..], category);
      assert forall q :: q in qs[1..] ==> q in qs;
      if qs[0].approved && qs[0].category == category then [qs[0]] + rest else rest
  }

  /** The questions a quiz of `category` is made of: the first five approved
      ones, in catalogue order. Serving and grading both use this list. */
  function QuizSet(qs: seq<Question>, category: string): (r: seq<Question>)
    ensures |r| <= QuizLength
    ensures r <= Approved(qs, category)
    ensures |r| == QuizLength || r == Approved(qs, category)
  {
    var all := Approved(qs, category);
    if |all| <= QuizLength then all else all[..QuizLength]
  }

  /** `({ correct, ...question }) => question`: every field but the answer. */
  function Strip(q: Question): (it: QuizItem)
    ensures it.id == q.id && it.text == q.text && it.options == q.options
    ensures it.category == q.category && it.approved == q.approved
    ensures it.createdBy == q.createdBy && it.createdAt == q.createdAt
  {
    QuizItem(q.id, q.text, q.options, q.category, q.approved, q.createdBy, q.createdAt)
  }

  /** GET /api/quiz/:category (server.js:438-463): 404 when the category has
      no approved question, otherwise at most five approved questions of that
      category without their answers. */
  function QuizFor(qs: seq<Question>, category: string): (r: QuizResponse)
    ensures r.NoQuestions? <==> forall q :: q in qs ==> !(q.approved && q.category == category)
    ensures r.Questions? ==> 0 < |r.items| <= QuizLength && r.total == |r.items|
    ensures r.Questions? ==> forall it :: it in r.items ==> it.approved && it.category == category
    ensures r.Questions? ==> |r.items| == |QuizSet(qs, category)|
    ensures r.Questions? ==> forall i :: 0 <= i < |r.items| ==> r.items[i] == Strip(QuizSet(qs, category)[i])
  {
    var picked := QuizSet(qs, category);
    if picked == [] then NoQuestions
    else
      assert picked[0] in Approved(qs, category);
      var items := seq(|picked|, i requires 0 <= i < |picked| => Strip(picked[i]));
      assert forall it :: it in items ==> exists i :: 0 <= i < |picked| && it == Strip(picked[i]);
      Questions(items, |items|)
  }

  /** Approving a question puts it at the end of its category's list: it is
      served only behind the approved questions that were there before. */
  lemma {:induction false} ApprovedAppend(qs: seq<Question>, q: Question, category: string)
    ensures Approved(qs + [q], category)
         == Approved(qs, category) + (if q.approved && q.category == category then [q] else [])
  {
    if qs == [] {
      assert [] + [q] == [q];
      assert [q][1..] == [];
    } else {
      assert (qs + [q])[1..] == qs[1..] + [q];
      ApprovedAppend(qs[1..], q, category);
    }
  }

  /** The indices below `n` at which the answer equals the `correct` field of
      the question at the same position. */
  ghost function Hits(answers: seq<int>, quiz: seq<Question>, n: nat): set<nat>
  {
    set i: nat | i < n && i < |answers| && i < |quiz| && answers[i] == quiz[i].correct
  }

  /** How one answer is judged against the question at its position. */
  function Judge(answer: int, q: Question): AnswerResult
  {
    AnswerResult(q.id, q.text, answer, q.correct, answer == q.correct, q.options)
  }

  /** The `answers.forEach` loop of POST /api/submit-quiz (server.js:484-498).
      An answer without a question at its position makes `question.id` throw,
      which the handler turns into a 500: None. Otherwise the score counts the
      positions whose answer is right, and every answer gets its record. */
  method Grade(answers: seq<int>, quiz: seq<Question>) returns (r: Option<Grading>)
    ensures r.None? <==> |answers| > |quiz|
    ensures r.Some? ==> r.value.score == |Hits(answers, quiz, |answers|)|
    ensures r.Some? ==> |r.value.results| == |answers|
    ensures r.Some? ==> forall i :: 0 <= i < |answers| ==> r.value.results[i] == Judge(answers[i], quiz[i])
  {
    var score: nat := 0;
    var results: seq<AnswerResult> := [];
    var i := 0;
    while i < |answers|
      invariant i <= |answers| && i <= |quiz|
      invariant score == |Hits(answers, quiz, i)|
      invariant |results| == i
      invariant forall k :: 0 <= k < i ==> results[k] == Judge(answers[k], quiz[k])
    {
      if i == |quiz| {
        return None;
      }
      HitsStep(answers, quiz, i);
      if answers[i] == quiz[i].correct {
        score := score + 1;
      }
      results := results + [Judge(answers[i], quiz[i])];
      i := i + 1;
    }
    return Some(Grading(score, results));
  }

  /** Index i adds one hit exactly when the answer there is right. */
  lemma HitsStep(answers: seq<int>, quiz: seq<Question>, i: nat)
    ensures var hit := i < |answers| && i < |quiz| && answers[i] == quiz[i].correct;
      |Hits(answers, quiz, i + 1)| == |Hits(answers, quiz, i)| + (if hit then 1 else 0)
  {
    var hit := i < |answers| && i < |quiz| && answers[i] == quiz[i].correct;
    assert i !in Hits(answers, quiz, i);
    assert Hits(answers, quiz, i + 1) == Hits(answers, quiz, i) + (if hit then {i} else {});
  }

  /** Each index adds at most one hit. */
  lemma {:induction false} HitsBelow(answers: seq<int>, quiz: seq<Question>, n: nat)
    ensures |Hits(answers, quiz, n)| <= n
  {
    if n > 0 {
      HitsBelow(answers, quiz, n - 1);
      HitsStep(answers, quiz, n - 1);
    }
  }

  /** A score never exceeds the number of answers nor the number of
      questions, hence never more than five. */
  lemma ScoreBounds(answers: seq<int>, quiz: seq<Question>)
    ensures |Hits(answers, quiz, |answers|)| <= |answers|
    ensures |Hits(answers, quiz, |answers|)| <= |quiz|
  {
    var m := if |answers| <= |quiz| then |answers| else |quiz|;
    assert Hits(answers, quiz, |answers|) == Hits(answers, quiz, m);
    HitsBelow(answers, quiz, m);
  }

  /** A well-formed suggestion (server.js:538): a non-empty text, exactly four
      options and a correct answer. A missing field is None (or the empty
      text). */
  datatype Suggestion = Suggestion(
    text: string,
    options: Option<seq<string>>,
    correctAnswer: Option<int>,
    category: string)

  predicate WellFormed(s: Suggestion)
  {
    s.text != "" && s.options.Some? && |s.options.value| == 4 && s.correctAnswer.Some?
  }

  /** The pending entry built from a suggestion (server.js:545-554). */
  function PendingQuestion(id: int, s: Suggestion, username: string, now: string): (q: Question)
    requires WellFormed(s)
    ensures !q.approved
  {
    Question(id, s.text, s.options.value, s.correctAnswer.value, s.category, false, username, Some(now))
  }

  /** The position of the pending question with this id (`findIndex`). */
  function PendingIndex(pending: seq<Question>, id: int): Option<nat>
  {
    FirstMatch(pending, (q: Question) => q.id == id)
  }

  function Ids(qs: seq<Question>): (r: seq<int>)
    ensures |r| == |qs| && forall i :: 0 <= i < |qs| ==> r[i] == qs[i].id
  {
    seq(|qs|, i requires 0 <= i < |qs| => qs[i].id)
  }

  /** Approval moves a question, it neither creates nor loses one: the ids
      over both lists are the same multiset before and after. */
  lemma ApprovalConservesQuestions(questions: seq<Question>, pending: seq<Question>, k: nat)
    requires k < |pending|
    ensures multiset(Ids(questions + [pending[k].(approved := true)])) + multiset(Ids(RemoveAt(pending, k)))
         == multiset(Ids(questions)) + multiset(Ids(pending))
  {
    var moved := pending[k].(approved := true);
    assert Ids(questions + [moved]) == Ids(questions) + [pending[k].id];
    var rest := RemoveAt(pending, k);
    assert Ids(pending) == Ids(pending[..k]) + [pending[k].id] + Ids(pending[k + 1..]);
    assert Ids(rest) == Ids(pending[..k]) + Ids(pending[k + 1..]);
  }
}

=== FILE: server.dfy ===
/** The in-memory store of server.js and the handlers that change it: the
    module-level arrays `users`, `groups`, `questions`, `pendingQuestions`,
    the `chatMessages` map and the two id counters become the fields of
    `Store`; the two fields a socket is given by `joinGroup` become the
    fields of `Connection`. Each handler runs to completion before another
    starts, so each is one method. */
module Server {
  import opened Common
  import opened Chat
  import opened Quiz
  import opened Groups
  import opened Directory

  /** The fixed category list (server.js:29). */
  const Categories: seq<string> := ["Mathematik", "Informatik", "Geschichte", "Naturwissenschaften"]

  /** The seed catalogue (server.js:36-82), all approved. */
  const SampleQuestions: seq<Question> := [
    Question(1, "Was ist 15 × 8?", ["120", "125", "115", "130"], 0, "Mathematik", true, "System", None),
    Question(2, "Was ist die Ableitung von x²?", ["2x", "x", "2", "x²"], 0, "Mathematik", true, "System", None),
    Question(3, "Was bedeutet HTML?",
             ["HyperText Markup Language", "High Tech Modern Language", "Home Tool Markup Language",
              "Hyperlink Text Management Language"], 0, "Informatik", true, "System", None),
    Question(4, "Welche Programmiersprache wird hauptsächlich für Webentwicklung verwendet?",
             ["Python", "JavaScript", "C++", "Java"], 1, "Informatik", true, "System", None)
  ]

  /** One entry of GET /api/categories. */
  datatype CategorySummary = CategorySummary(name: string, questionCount: nat, activeGroups: nat)

  /** The groups of `category` that are not finished. */
  function ActiveInCategory(groups: seq<Group>, category: string): (r: seq<Group>)
    ensures |r| <= |groups|
    ensures forall g :: g in r <==> g in groups && g.category == category && g.status != Finished
  {
    if groups == [] then []
    else
      var rest := ActiveInCategory(groups[1..], category);
      assert forall g :: g in groups <==> g == groups[0] || g in groups[1..];
      if groups[0].category == category && groups[0].status != Finished then [groups[0]] + rest else rest
  }

  /** A group added at the end of the registry is counted after the others,
      and only when it is of the category and not finished: the result is
      the order-preserving `filter`, each group counted once. */
  lemma {:induction false} ActiveAppend(groups: seq<Group>, g: Group, category: string)
    ensures ActiveInCategory(groups + [g], category)
         == ActiveInCategory(groups, category) + (if g.category == category && g.status != Finished then [g] else [])
  {
    if groups == [] {
      assert [] + [g] == [g];
      assert [g][1..] == [];
    } else {
      assert (groups + [g])[1..] == groups[1..] + [g];
      ActiveAppend(groups[1..], g, category);
    }
  }

  /** GET /api/categories (server.js:363-372): per fixed category, in order,
      the number of approved questions and of groups that are not finished. */
  function CategorySummaries(questions: seq<Question>, groups: seq<Group>): (r: seq<CategorySummary>)
    ensures |r| == |Categories|
    ensures forall i :: 0 <= i < |r| ==>
      && r[i].name == Categories[i]
      && r[i].questionCount == |Approved(questions, Categories[i])|
      && r[i].activeGroups == |ActiveInCategory(groups, Categories[i])|
      && r[i].activeGroups <= |groups|
  {
    seq(|Categories|, i requires 0 <= i < |Categories| =>
      CategorySummary(Categories[i], |Approved(questions, Categories[i])|, |ActiveInCategory(groups, Categories[i])|))
  }

  /** Answer of POST /api/join-group. */
  datatype JoinOutcome =
    | UserNotFound
    | AlreadyInGroup(group: Group)
    | Joined(group: Group, memberDetails: seq<MemberDetail>)

  /** The values POST /api/join-group leaves behind: its answer, the
      registry, the group counter, and whether a group (and so a chat log)
      was opened. */
  datatype JoinStep = JoinStep(outcome: JoinOutcome, groups: seq<Group>, nextGroupId: int, created: bool)

  /** POST /api/join-group (server.js:375-435) on values: an unknown user
      gets the 404, a user already in an active group gets that group back,
      and anyone else is placed by PlaceUser and gets the group with the
      details of its members. */
  function JoinRequest(users: seq<User>, groups: seq<Group>, nextGroupId: int,
                       uid: int, category: string, now: string): (s: JoinStep)
    ensures s.outcome.UserNotFound? <==> UserIndex(users, uid).None?
    ensures s.outcome.AlreadyInGroup? <==> UserIndex(users, uid).Some? && ActiveGroupOf(groups, uid).Some?
    ensures !s.outcome.Joined? ==> s.groups == groups && s.nextGroupId == nextGroupId && !s.created
    ensures s.outcome.AlreadyInGroup? ==> s.outcome.group in groups && ActiveMember(s.outcome.group, uid)
    ensures s.outcome.Joined? ==> uid in s.outcome.group.members && s.outcome.group in s.groups
    ensures s.outcome.Joined? ==>
      var p := PlaceUser(groups, nextGroupId, uid, category, now);
      && s.groups == p.groups && s.nextGroupId == p.nextGroupId && s.created == p.created
      && s.outcome.group == p.groups[p.index]
  {
    if UserIndex(users, uid).None? then JoinStep(UserNotFound, groups, nextGroupId, false)
    else match ActiveGroupOf(groups, uid)
      case Some(k) => JoinStep(AlreadyInGroup(groups[k]), groups, nextGroupId, false)
      case None =>
        var p := PlaceUser(groups, nextGroupId, uid, category, now);
        var g := p.groups[p.index];
        JoinStep(Joined(g, MemberDetails(users, g.members)), p.groups, p.nextGroupId, p.created)
  }

  /** Joining keeps the registry invariant and only extends the registry.
      A user who joins appears exactly once in the group they get, with
      score 0; the group holds at most StartThreshold (< Capacity) members,
      is `ready` exactly when it has reached StartThreshold, is now the
      user's one active group, and comes with one detail per member. */
  lemma JoinRequestPlaces(users: seq<User>, nextUserId: int, groups: seq<Group>, nextGroupId: int,
                          uid: int, category: string, now: string)
    requires DirectoryInv(users, nextUserId)
    requires RegistryInv(groups, nextGroupId, |users|)
    ensures var s := JoinRequest(users, groups, nextGroupId, uid, category, now);
      && RegistryInv(s.groups, s.nextGroupId, |users|)
      && RegistryGrows(groups, s.groups)
      && (s.outcome.Joined? ==>
            var g := s.outcome.group;
            && multiset(g.members)[uid] == 1 && g.scores[uid] == 0
            && (g.status == Ready <==> |g.members| >= StartThreshold)
            && |g.members| <= StartThreshold < Capacity
            && ActiveGroupOf(s.groups, uid).Some? && s.groups[ActiveGroupOf(s.groups, uid).value] == g
            && |s.outcome.memberDetails| == |g.members|
            && (forall k :: 0 <= k < |g.members| ==> s.outcome.memberDetails[k] == DetailOf(users[g.members[k] - 1])))
  {
    var s := JoinRequest(users, groups, nextGroupId, uid, category, now);
    if s.outcome.Joined? {
      UserIndexById(users, nextUserId, uid);
      PlaceUserKeepsInvariant(groups, nextGroupId, |users|, uid, category, now);
      PlaceUserEnrols(groups, nextGroupId, |users|, uid, category, now);
      PlaceUserGrows(groups, nextGroupId, uid, category, now);
      var p := PlaceUser(groups, nextGroupId, uid, category, now);
      MemberDetailsComplete(users, nextUserId, p.groups[p.index].members);
    }
  }

  /** Answer of POST /api/submit-quiz; `Failed` is the 500 of a thrown error. */
  datatype SubmitOutcome =
    | UserOrGroupNotFound
    | Failed
    | Scored(score: nat, totalQuestions: nat, results: seq<AnswerResult>)

  /** Answer of POST /api/suggest-question. */
  datatype SuggestOutcome = SuggesterNotFound | IncompleteQuestion | Suggested(questionId: int)

  /** Answer of the approve and reject handlers. */
  datatype ModerationOutcome = QuestionNotFound | Accepted(question: Question) | Rejected

  /** Answer of POST /api/register. */
  datatype RegisterOutcome = Refused(error: RegistrationError) | Registered(profile: Profile)

  class Store {
    var users: seq<User>
    var groups: seq<Group>
    var questions: seq<Question>
    var pending: seq<Question>
    var chat: map<int, seq<ChatMessage>>
    var nextUserId: int
    var nextGroupId: int

    /** What every handler keeps: the directory and registry invariants, one
        chat log per group id, approved questions in the catalogue and
        unapproved ones in the queue. */
    ghost predicate Valid()
      reads this
    {
      && DirectoryInv(users, nextUserId)
      && RegistryInv(groups, nextGroupId, |users|)
      && (forall gid :: gid in chat <==> 1 <= gid < nextGroupId)
      && (forall q :: q in questions ==> q.approved)
      && (forall q :: q in pending ==> !q.approved)
    }

    /** The state at start-up (server.js:25-33, 80-82). */
    constructor ()
      ensures Valid()
      ensures users == [] && groups == [] && pending == [] && chat == map[]
      ensures questions == SampleQuestions && nextUserId == 1 && nextGroupId == 1
    {
      users, groups, questions, pending := [], [], SampleQuestions, [];
      chat := map[];
      nextUserId, nextGroupId := 1, 1;
    }

    /** `findOrCreateGroup` (server.js:90-113): the first group of the
        category with room that is still waiting, or else a new waiting group
        with the next id and an empty chat log. */
    method FindOrCreateGroup(category: string, now: string) returns (index: nat)
      requires Valid()
      modifies this`groups, this`chat, this`nextGroupId
      ensures Valid()
      ensures index < |groups|
      ensures Available(old(groups), category).Some? ==>
        && index == Available(old(groups), category).value
        && groups == old(groups) && chat == old(chat) && nextGroupId == old(nextGroupId)
      ensures Available(old(groups), category).None? ==>
        && index == |old(groups)|
        && groups == old(groups) + [NewGroup(old(nextGroupId), category, now)]
        && chat == old(chat)[old(nextGroupId) := []]
        && nextGroupId == old(nextGroupId) + 1
    {
      var found := Available(groups, category);
      if found.Some? {
        return found.value;
      }
      OpenGroupKeepsInvariant(groups, nextGroupId, |users|, category, now);
      index := |groups|;
      groups := groups + [NewGroup(nextGroupId, category, now)];
      chat := chat[nextGroupId := []];
      nextGroupId := nextGroupId + 1;
    }

    /** server.js:400-410: find or create the group, then enrol the user in
        it. The user must be registered and in no active group, which the
        join-group handler has checked. */
    method PlaceMember(uid: int, category: string, now: string) returns (k: nat)
      requires Valid()
      requires 1 <= uid <= |users|
      requires ActiveGroupOf(groups, uid).None?
      modifies this`groups, this`chat, this`nextGroupId
      ensures Valid()
      ensures var p := PlaceUser(old(groups), old(nextGroupId), uid, category, now);
        && groups == p.groups && nextGroupId == p.nextGroupId && k == p.index
        && chat == (if p.created then old(chat)[old(nextGroupId) := []] else old(chat))
      ensures RegistryGrows(old(groups), groups)
    {
      ghost var p := PlaceUser(groups, nextGroupId, uid, category, now);
      PlaceUserKeepsInvariant(groups, nextGroupId, |users|, uid, category, now);
      PlaceUserGrows(groups, nextGroupId, uid, category, now);
      k := FindOrCreateGroup(category, now);
      assert k == p.index;
      if p.created {
        assert groups[k := Enrol(groups[k], uid)] == p.groups;
      }
      groups := groups[k := Enrol(groups[k], uid)];
    }

    /** POST /api/join-group (server.js:375-435): the answer and the new
        registry are those of JoinRequest, a chat log is opened with a new
        group, and everything else is left alone. */
    method JoinGroup(uid: int, category: string, now: string) returns (r: JoinOutcome)
      requires Valid()
      modifies this`groups, this`chat, this`nextGroupId
      ensures Valid()
      ensures var s := JoinRequest(users, old(groups), old(nextGroupId), uid, category, now);
        && r == s.outcome && groups == s.groups && nextGroupId == s.nextGroupId
        && chat == (if s.created then old(chat)[old(nextGroupId) := []] else old(chat))
      ensures RegistryGrows(old(groups), groups)
      ensures LogsExtend(old(chat), chat)
    {
      if UserIndex(users, uid).None? {
        return UserNotFound;
      }
      var existing := ActiveGroupOf(groups, uid);
      if existing.Some? {
        return AlreadyInGroup(groups[existing.value]);
      }
      UserIndexById(users, nextUserId, uid);
      var k := PlaceMember(uid, category, now);
      var g := groups[k];
      r := Joined(g, MemberDetails(users, g.members));
    }

    /** server.js:500-504: the score is added to the user's gold, their
        quiz count grows by one, and the group's score for the user is
        overwritten. */
    method RecordResult(ui: nat, gi: nat, uid: int, score: nat)
      requires Valid()
      requires ui < |users| && gi < |groups|
      modifies this`users, this`groups
      ensures Valid()
      ensures users == old(users)[ui := old(users)[ui].(totalGoldtaler := old(users)[ui].totalGoldtaler + score,
                                                       completedQuizzes := old(users)[ui].completedQuizzes + 1)]
      ensures groups == old(groups)[gi := RecordScore(old(groups)[gi], uid, score)]
      ensures RegistryGrows(old(groups), groups)
    {
      CreditKeepsDirectory(users, nextUserId, ui, score);
      RecordScoreKeepsInvariant(groups, nextGroupId, |users|, gi, uid, score);
      var u := users[ui];
      users := users[ui := u.(totalGoldtaler := u.totalGoldtaler + score,
                              completedQuizzes := u.completedQuizzes + 1)];
      groups := groups[gi := RecordScore(groups[gi], uid, score)];
    }

    /** POST /api/submit-quiz (server.js:466-523). Unknown user or group: 404,
        nothing changes. More answers than quiz questions: the grading loop
        throws, 500, nothing changes. Otherwise the score is the number of
        right answers; the user's gold grows by it, their quiz count by one,
        and the group's score for the user is overwritten with it. */
    method SubmitQuiz(uid: int, gid: int, category: string, answers: seq<int>) returns (r: SubmitOutcome)
      requires Valid()
      modifies this`users, this`groups
      ensures Valid()
      ensures UserIndex(old(users), uid).None? || GroupIndex(old(groups), gid).None? ==>
        r == UserOrGroupNotFound && users == old(users) && groups == old(groups)
      ensures UserIndex(old(users), uid).Some? && GroupIndex(old(groups), gid).Some?
              && |answers| > |QuizSet(questions, category)| ==>
        r == Failed && users == old(users) && groups == old(groups)
      ensures UserIndex(old(users), uid).Some? && GroupIndex(old(groups), gid).Some?
              && |answers| <= |QuizSet(questions, category)| ==>
        var ui := UserIndex(old(users), uid).value;
        var gi := GroupIndex(old(groups), gid).value;
        var score := |Hits(answers, QuizSet(questions, category), |answers|)|;
        && r.Scored? && r.score == score && r.totalQuestions == |answers|
        && |r.results| == |answers|
        && (forall i :: 0 <= i < |answers| ==> r.results[i] == Judge(answers[i], QuizSet(questions, category)[i]))
        && users == old(users)[ui := old(users)[ui].(totalGoldtaler := old(users)[ui].totalGoldtaler + score,
                                                     completedQuizzes := old(users)[ui].completedQuizzes + 1)]
        && groups == old(groups)[gi := RecordScore(old(groups)[gi], uid, score)]
      ensures r.Scored? ==> r.score <= |answers| && r.score <= QuizLength
      ensures RegistryGrows(old(groups), groups)
    {
      var ui := UserIndex(users, uid);
      var gi := GroupIndex(groups, gid);
      if ui.None? || gi.None? {
        return UserOrGroupNotFound;
      }
      var grading := Grade(answers, QuizSet(questions, category));
      if grading.None? {
        return Failed;
      }
      var score := grading.value.score;
      ScoreBounds(answers, QuizSet(questions, category));
      RecordResult(ui.value, gi.value, uid, score);
      r := Scored(score, |answers|, grading.value.results);
    }

    /** POST /api/suggest-question (server.js:526-568): unknown user 404,
        incomplete question 400, otherwise one unapproved entry is appended to
        the queue. `id` stands for `Date.now()`. */
    method SuggestQuestion(uid: int, s: Suggestion, id: int, now: string) returns (r: SuggestOutcome)
      requires Valid()
      modifies this`pending
      ensures Valid()
      ensures UserIndex(users, uid).None? ==> r == SuggesterNotFound && pending == old(pending)
      ensures UserIndex(users, uid).Some? && !WellFormed(s) ==> r == IncompleteQuestion && pending == old(pending)
      ensures UserIndex(users, uid).Some? && WellFormed(s) ==>
        && r == Suggested(id)
        && pending == old(pending) + [PendingQuestion(id, s, users[UserIndex(users, uid).value].username, now)]
    {
      var ui := UserIndex(users, uid);
      if ui.None? {
        return SuggesterNotFound;
      }
      if !WellFormed(s) {
        return IncompleteQuestion;
      }
      pending := pending + [PendingQuestion(id, s, users[ui.value].username, now)];
      r := Suggested(id);
    }

    /** POST /api/admin/approve-question/:id (server.js:579-605): the first
        pending question with that id is removed from the queue and a copy
        marked approved is appended to the catalogue; 404 when there is none. */
    method ApproveQuestion(id: int) returns (r: ModerationOutcome)
      requires Valid()
      modifies this`questions, this`pending
      ensures Valid()
      ensures PendingIndex(old(pending), id).None? ==>
        r == QuestionNotFound && questions == old(questions) && pending == old(pending)
      ensures PendingIndex(old(pending), id).Some? ==>
        var k := PendingIndex(old(pending), id).value;
        && r == Accepted(old(pending)[k].(approved := true))
        && questions == old(questions) + [old(pending)[k].(approved := true)]
        && pending == RemoveAt(old(pending), k)
      ensures multiset(Ids(questions)) + multiset(Ids(pending)) == multiset(Ids(old(questions))) + multiset(Ids(old(pending)))
    {
      var found := PendingIndex(pending, id);
      if found.None? {
        return QuestionNotFound;
      }
      ApprovalConservesQuestions(questions, pending, found.value);
      var q := pending[found.value].(approved := true);
      questions := questions + [q];
      pending := RemoveAt(pending, found.value);
      r := Accepted(q);
    }

    /** DELETE /api/admin/reject-question/:id (server.js:608-631): the first
        pending question with that id is dropped; 404 when there is none. */
    method RejectQuestion(id: int) returns (r: ModerationOutcome)
      requires Valid()
      modifies this`pending
      ensures Valid()
      ensures PendingIndex(old(pending), id).None? ==> r == QuestionNotFound && pending == old(pending)
      ensures PendingIndex(old(pending), id).Some? ==>
        r == Rejected && pending == RemoveAt(old(pending), PendingIndex(old(pending), id).value)
    {
      var found := PendingIndex(pending, id);
      if found.None? {
        return QuestionNotFound;
      }
      pending := RemoveAt(pending, found.value);
      r := Rejected;
    }

    /** POST /api/register (server.js:266-324): a request that fails a check
        gets its 400 and adds nobody; otherwise one student is appended under
        the next id. `hash` is the bcrypt hash of the password. The checks and
        the append happen in one step here (see RacingRegistrationsDuplicateName
        for the handler as written). */
    method Register(req: RegistrationRequest, hash: string, now: string) returns (r: RegisterOutcome)
      requires Valid()
      modifies this`users, this`nextUserId
      ensures Valid()
      ensures RegistrationCheck(old(users), req).Some? ==>
        && r == Refused(RegistrationCheck(old(users), req).value)
        && users == old(users) && nextUserId == old(nextUserId)
      ensures RegistrationCheck(old(users), req).None? ==>
        && users == old(users) + [NewUser(old(nextUserId), req, hash, now)]
        && nextUserId == old(nextUserId) + 1
        && r == Registered(ProfileOf(NewUser(old(nextUserId), req, hash, now)))
    {
      var check := RegistrationCheck(users, req);
      if check.Some? {
        return Refused(check.value);
      }
      AdmissionKeepsDirectoryUnique(users, nextUserId, req, hash, now);
      var u := NewUser(nextUserId, req, hash, now);
      users := users + [u];
      nextUserId := nextUserId + 1;
      r := Registered(ProfileOf(u));
    }
  }

  /** `groupId && ...`: the id 0 is falsy. */
  predicate Truthy(gid: Option<int>)
  {
    gid.Some? && gid.value != 0
  }

  /** A socket's binding: `socket.userId` and `socket.groupId`, both absent
      until a successful `joinGroup` sets them. */
  class Connection {
    var userId: Option<int>
    var groupId: Option<int>

    constructor ()
      ensures userId == None && groupId == None
    {
      userId, groupId := None, None;
    }

    /** The bound group, if any, has a chat log in `store`. */
    ghost predicate BoundIn(store: Store)
      reads this, store
    {
      groupId.Some? ==> groupId.value in store.chat
    }

    /** The user the socket is bound to, looked up afresh by id. */
    function Sender(store: Store): Option<nat>
      reads this, store
    {
      match userId
      case None => None
      case Some(uid) => UserIndex(store.users, uid)
    }

    /** The `joinGroup` socket event (server.js:120-148). With a known user
        and group the socket is bound to both, one welcome entry is appended to
        the group's log and the whole log is sent back, ending with that
        welcome. Otherwise nothing changes and nothing is sent. Membership of
        the group is neither checked nor changed. */
    method JoinGroup(store: Store, uid: int, gid: int, msgId: string, now: string)
      returns (history: Option<seq<ChatMessage>>)
      requires store.Valid() && BoundIn(store)
      modifies this, store`chat
      ensures store.Valid() && BoundIn(store)
      ensures history.Some? <==> UserIndex(store.users, uid).Some? && GroupIndex(store.groups, gid).Some?
      ensures history.None? ==>
        userId == old(userId) && groupId == old(groupId) && store.chat == old(store.chat)
      ensures history.Some? ==>
        var welcome := WelcomeMessage(msgId, store.users[UserIndex(store.users, uid).value].username, now);
        && userId == Some(uid) && groupId == Some(gid)
        && gid in old(store.chat)
        && store.chat == old(store.chat)[gid := old(store.chat)[gid] + [welcome]]
        && history.value == store.chat[gid]
        && history.value[|history.value| - 1] == welcome
      ensures store.groups == old(store.groups)
      ensures LogsExtend(old(store.chat), store.chat)
    {
      var ui := UserIndex(store.users, uid);
      var gi := GroupIndex(store.groups, gid);
      if ui.None? || gi.None? {
        return None;
      }
      userId, groupId := Some(uid), Some(gid);
      var welcome := WelcomeMessage(msgId, store.users[ui.value].username, now);
      store.chat := store.chat[gid := store.chat[gid] + [welcome]];
      history := Some(store.chat[gid]);
    }

    /** The `sendMessage` socket event (server.js:151-174). A socket bound to
        a known user and a group, with a body that is not blank, appends one
        `user` entry carrying the trimmed body; anything else changes nothing.
        The entry appended is returned, as it is broadcast. */
    method SendMessage(store: Store, message: string, msgId: string, now: string)
      returns (sent: Option<ChatMessage>)
      requires store.Valid() && BoundIn(store)
      modifies store`chat
      ensures store.Valid() && BoundIn(store)
      ensures sent.Some? <==> Sender(store).Some? && Truthy(groupId) && Trim(message) != ""
      ensures sent.None? ==> store.chat == old(store.chat)
      ensures sent.Some? ==>
        var u := store.users[Sender(store).value];
        && sent.value == UserMessage(msgId, u.id, u.username, u.avatar, Trim(message), now)
        && sent.value.kind == UserKind && sent.value.body == Text(Trim(message))
        && store.chat == old(store.chat)[groupId.value := old(store.chat)[groupId.value] + [sent.value]]
      ensures LogsExtend(old(store.chat), store.chat)
    {
      var ui := Sender(store);
      if ui.None? || !Truthy(groupId) || Trim(message) == "" {
        return None;
      }
      var u := store.users[ui.value];
      var gid := groupId.value;
      var entry := UserMessage(msgId, u.id, u.username, u.avatar, Trim(message), now);
      store.chat := store.chat[gid := store.chat[gid] + [entry]];
      sent := Some(entry);
    }

    /** The `shareResult` socket event (server.js:177-195): a socket bound to
        a known user and a group appends one `result` entry announcing the
        score; group scores are left alone. */
    method ShareResult(store: Store, score: int, totalQuestions: int, msgId: string, now: string)
      returns (sent: Option<ChatMessage>)
      requires store.Valid() && BoundIn(store)
      modifies store`chat
      ensures store.Valid() && BoundIn(store)
      ensures sent.Some? <==> Sender(store).Some? && Truthy(groupId)
      ensures sent.None? ==> store.chat == old(store.chat)
      ensures sent.Some? ==>
        var u := store.users[Sender(store).value];
        && sent.value == ResultMessage(msgId, u.username, score, totalQuestions, now)
        && sent.value.kind == ResultKind
        && store.chat == old(store.chat)[groupId.value := old(store.chat)[groupId.value] + [sent.value]]
      ensures store.groups == old(store.groups)
      ensures LogsExtend(old(store.chat), store.chat)
    {
      var ui := Sender(store);
      if ui.None? || !Truthy(groupId) {
        return None;
      }
      var u := store.users[ui.value];
      var gid := groupId.value;
      var entry := ResultMessage(msgId, u.username, score, totalQuestions, now);
      store.chat := store.chat[gid := store.chat[gid] + [entry]];
      sent := Some(entry);
    }
  }
}
